=== FILE: README.md ===
# debug, Node back-end: a Dafny model

This project models the pure decision and string logic inside the Node
back-end of the `debug` logging library (`src/node.js`):

- **Configuration.** The `inspectOpts` map is built from the `DEBUG_*`
  environment variables. Each key loses its six-character prefix, is
  lower-cased and camel-cased. Each value is coerced into a boolean, `null` or
  the original text (`Config`).
- **Colours.** The basic or the 256-colour palette is chosen from the
  terminal's colour-support level, although nothing in this file reads it.
  The ANSI foreground escape is built for an instance's colour number.
  `useColors()` decides whether colours are used (`Colors`).
- **Output channel.** `getWriteStream()` chooses between standard error and a
  named pipe. It runs over an abstract filesystem that maps each path to a
  pipe or to any other entry. `init()` runs it again (`Channel`).
- **Line formatting.** `formatArgs()` has a colour mode and a plain mode;
  `getDate()` supplies the plain mode's timestamp. The `%o` and `%O` directive
  renderers are modelled too (`Format`).
- **Persistence.** `save()` keeps the enabled-namespace list in the `DEBUG`
  variable, and `load()` reads it back, although `load()` is not exported
  (`Persist`).
- **Host primitives.** `Text` models ASCII case mapping, `String.prototype.trim`,
  `split` on one character, `join` with any separator, and decimal rendering.

Everything is a pure function over immutable values. The host's inputs are
parameters:

- the environment, as a map from name to text (`Environment.Env`), and its
  enumeration in the host's order, as a sequence of name/text pairs;
- the filesystem, as a map from path to entry;
- the terminal flag of standard error and the colour-support level;
- the current time, as its ISO string;
- the pretty-printer `util.inspect` and the duration renderer `humanize`, as
  function parameters.

Places where the code does something other than its comments and option
names suggest. The model follows the code in each case:

- The comment at src/node.js:135 says the value is coerced "into JS value",
  and the usage line at src/node.js:119 passes `DEBUG_DEPTH=10`. But the
  numeric branch (src/node.js:143) compares a number with a string
  (`+val === val`), so it is never true. `DEBUG_DEPTH=10` therefore yields the
  text `"10"`, not the number 10. The value type has no number variant, and
  `Config.NumericTextStaysText` and `Config.ExtractExample` state this.
- The comment at src/node.js:159 presents standard error as the default, but a
  truthy `fd` that is not text makes `getWriteStream()` return nothing
  (src/node.js:166-183 has no branch for it; `Channel.Undefined`).
- `%o` and `%O` (src/node.js:292, 304) store `_exports.useColors` as the
  `colors` option. The object passed to setup at src/node.js:283 holds the
  `useColors` function of src/node.js:189 under that name. Unless setup
  replaces it, the stored value is a function, which is always truthy. So
  after any `%o` or `%O`, `useColors()` answers true whatever the terminal.
  The model takes the truthiness of the stored value as a boolean flag;
  `Format.RenderersFixUseColors` with the flag true shows the effect.
- The comment on `init` (src/node.js:262-263) promises a fresh `inspectOpts`
  object per instance. The copy at src/node.js:267 is commented out, and the
  loop at src/node.js:270-272 only assigns each option to itself, so no copy
  is made (`Channel.Init`). The renderers' `colors` write therefore lands in
  the one shared options object.
- `humanize` (src/node.js:210) is not imported or defined in `src/node.js`
  (its imports, src/node.js:5-8, are `fs`, `mkfifo`, `tty` and `util`). In
  this strict module code the call throws a `ReferenceError` in colour mode,
  after `args[0]` has already been rewritten at src/node.js:209. The model
  treats `humanize` as a given function; see the `Format.FormatArgs` line
  under "Left out".
- The palette `colors` (src/node.js:25, 33-110) is chosen but never used in
  this file. It is a module-local variable: it is not in the object handed to
  setup (src/node.js:282-285), and the module exports only `_exports`
  (src/node.js:309). The colour number `formatArgs` reads (src/node.js:205)
  is assigned by `common.js`, which cannot see this palette. So
  `Colors.PaletteEscapes` describes the escapes the palette's entries would
  get, not a use the file makes of them.
- `load()` (src/node.js:255-257) is never exported. The object handed to
  setup at src/node.js:282-285 lists `save` but not `load`, and lists `init`
  twice. `_exports` is setup's result, so nothing outside `src/node.js` can
  reach `load`. `Persist.Load` and `Persist.SaveLoadRoundTrip` describe the
  pair as written, not a pairing the library uses.

## Model

| member | source | states |
|---|---|---|
| Config.DeriveKey | src/node.js:128-133 | the option name has no `_` followed by a lower-case letter, and snake-casing it gives back the lower-cased name after the six-character prefix |
| Config.SnakeCamelRoundTrip | src/node.js:128-133 | on a name without upper-case letters, camel-casing is undone by snake-casing, so no information is lost |
| Config.Truthy | src/node.js:191 | a value is truthy exactly when it is not `false`, `null` or the empty string, the falsy values a coerced option can hold; the same test guards `fd` (src/node.js:160) and `hideDate` (src/node.js:217) |
| Config.CoercedTruthiness | src/node.js:137-145 | a coerced text is truthy exactly when it is no false word, not `null` and not empty |
| Config.Coerce | src/node.js:136-145 | precedence table: any-case `yes/on/true/enabled` gives true, any-case `no/off/false/disabled` gives false, exactly `null` gives null, anything else stays the unchanged text |
| Config.NumericTextStaysText | src/node.js:143-145 | the decimal text of any number coerces to that same text, never to a number |
| Config.IsDebugKey | src/node.js:124-126 | a name is a configuration variable exactly when it has at least six characters and each of the first six equals the matching character of `debug_` up to ASCII case |
| Config.CamelCase | src/node.js:131-133 | the result is no longer than the input, has no `_` followed by a lower-case letter, and starts with a lower-case letter exactly when the input does |
| Config.Extract | src/node.js:124-149 | no option name keeps a snake_case joint, and the last entry, when it is a `DEBUG_*` variable, sets its option to its coerced text (the full characterisation is `Config.ExtractSpec`) |
| Config.ExtractAppend | src/node.js:126-148 | one more entry: a `DEBUG_*` variable writes its coerced text over whatever the earlier entries left under its option name; any other variable changes nothing |
| Config.ExtractSpec | src/node.js:124-149 | an option is present exactly when some `/^debug_/i` variable derives its name; it holds the coerced value of the last such variable; no option name keeps a snake_case joint |
| Config.ExampleKeys | src/node.js:124-133 | `DEBUG_HIDE_DATE` gives `hideDate`, `DEBUG_DEPTH` gives `depth`, `debug_foo` and `DEBUG_FOO` both give `foo`, and `PATH` is not a config variable |
| Config.ExampleValues | src/node.js:137-145 | `yes` gives true, `10` stays text, `null` gives null, `off` gives false |
| Config.ExtractExample | src/node.js:124-149 | a worked environment: the later of two variables with the same option name wins and non-`DEBUG_` variables contribute nothing |
| Colors.SelectPalette | src/node.js:25-111 | level 2 or more chooses the 76-entry palette, otherwise the 6-entry one; every entry is at most 255 and is below 8 exactly when the basic palette is chosen |
| Colors.PaletteRanges | src/node.js:25-110 | every basic entry is below 8; the extended palette has 76 entries, all in 8..255 |
| Colors.ColorCode | src/node.js:206 | colours below 8 give the four-character `ESC[3<digit>`; others give `ESC[38;5;` followed by the decimal colour |
| Colors.ColorCodeRoundTrip | src/node.js:206 | the colour can be read back from its escape, so distinct colours get distinct escapes |
| Colors.PaletteEscapes | src/node.js:206 | every basic entry gets the short escape and every extended entry the 256-colour escape |
| Colors.UseColors | src/node.js:189-193 | a present `colors` option decides by its truthiness, whatever the terminal; without one the terminal flag decides |
| Colors.ColorsVariableOverridesTty | src/node.js:189-193 | when `DEBUG_COLORS` is the last variable for `colors`, colours are on exactly when its text is not a false word, not `null` and not empty, whatever the terminal |
| Channel.GetWriteStream | src/node.js:158-184 | falsy `fd` gives stderr; a path with a non-pipe gives stderr and creates nothing; a path with a pipe gives a stream on it; a missing path is made a pipe, requesting mode 0644, and gets a stream; a truthy non-text `fd` gives nothing; existing entries never change; a stream is only opened on a pipe |
| Channel.ResolveIdempotent | src/node.js:158-184 | resolving again with the same options on the filesystem left by the first resolution gives the same sink and changes nothing |
| Channel.Init | src/node.js:266-275 | copying every option onto itself leaves the options unchanged, and the channel is the one `getWriteStream` resolves for them |
| Format.PrefixJoin | src/node.js:209 | prefix plus the lines joined by newline-and-prefix equals every line prefixed, joined by newlines |
| Format.GetDate | src/node.js:216-221 | a truthy `hideDate` gives the empty string, otherwise the timestamp and a single space |
| Format.FormatArgs | src/node.js:201-214 | colour mode: every line of the first argument is prefixed, exactly one suffix argument `code m+ elapsed reset` is appended, the other arguments are unchanged; plain mode: date, namespace and a space are put in front of the first argument and the argument count is unchanged |
| Format.ColorModeLines | src/node.js:206-209 | with a namespace free of line breaks, the formatted first argument has as many lines as the original and line i is the prefix followed by original line i |
| Format.PlainModeLayout | src/node.js:212-221 | plain mode gives timestamp, space, namespace, space, message; with `hideDate` only namespace, space, message |
| Format.FormatLowerO | src/node.js:291-297 | sets `colors` to the flag first; the result is the rendering's lines, each trimmed, joined by single spaces; it contains no line break; a one-line rendering is only trimmed |
| Format.FormatUpperO | src/node.js:303-306 | sets `colors` to the flag first and returns the pretty-printer output unchanged |
| Format.RenderersFixUseColors | src/node.js:291-306 | after either renderer, `useColors()` answers the flag it stored, whatever the terminal |
| Text.Trim | src/node.js:295 | the result is a contiguous slice of the input, everything cut off before and after it is ECMAScript white space, it neither starts nor ends with white space, and it equals the input when the input has no white space at either end |
| Persist.Save | src/node.js:238-246 | a non-empty list is stored in `DEBUG`; an empty or missing one removes `DEBUG`; every other variable is unchanged |
| Persist.Load | src/node.js:255-257 | gives the text of `DEBUG` exactly when it is set |
| Persist.SaveLoadRoundTrip | src/node.js:238-257 | load after save gives back a non-empty list, gives nothing after an empty or missing one, and never gives an empty list |
| Persist.SaveOverwrites | src/node.js:238-246 | the later of two saves decides the environment |
| Text.Decimal | src/node.js:206 | the decimal text of a colour: at least one digit, digits only, no leading zero except for 0, one digit exactly below 10; `Text.DecimalRoundTrip` reads the number back |
| Text.DecimalRoundTrip | src/node.js:206 | the digits' value is the number rendered |
| Text.Lower | src/node.js:130 | same length, no upper-case ASCII letter left, and each character is the lower-case form of the input character |
| Text.Split | src/node.js:294 | at least one piece and no piece contains the separator; `Text.JoinSplit` and `Text.SplitJoin` show split and join undo each other |
| Text.Join | src/node.js:296 | joining nothing gives the empty string and the result starts with the first piece |
| Text.JoinEndsWithLast | src/node.js:296 | a join ends with its last piece |
| Format.LowerOFacts | src/node.js:294-296 | the trimmed lines of any rendering joined by single spaces hold no line break, and a rendering without line breaks is only trimmed |
| Text.JoinSplit | src/node.js:209 | joining the pieces of a split with the separator gives back the string |
| Text.SplitJoin | src/node.js:294-296 | splitting the join of separator-free pieces gives back the pieces |
| Format.LinePrefix | src/node.js:207 | starts with two spaces, the colour escape and the bold marker `;1m`, ends with the namespace, a space and the reset escape, and contains a line break exactly when the namespace does |
| Format.ElapsedSuffix | src/node.js:210 | starts with the colour escape and `m+`, ends with the elapsed text and the reset escape, and contains a line break exactly when the elapsed text does |
| Format.TrimEach | src/node.js:295 | one result per line, each the trimmed line |
| Persist.ExtractIgnoresDebugVar | src/node.js:124-126 | `DEBUG` is not a configuration variable: leaving it out of any enumeration gives the same options |
| Persist.SaveKeepsOptions | src/node.js:238-246 | enumerations of the environment before and after a save that agree, in order, on every variable other than `DEBUG` give the same options |

## Left out

- `log` (src/node.js:227-230): host printf-style interpolation followed by a stream write.
- `destroy` (src/node.js:16-19): a no-op wrapped in the host's one-time deprecation warning.
- `setup` from `common.js` (src/node.js:277-285): namespace hashing, colour selection per namespace and enable matching live there. `common.js` is not part of this model.
- The `supports-color` detection (src/node.js:27-114): the colour-support level is an input. The model follows the intent of the comment at src/node.js:28, that a missing detector means the basic palette. As written, an `import` declaration inside a `try` block (src/node.js:30) is a syntax error in a module, and a missing static import fails at link time, where no `catch` sees it.
- `tty.isatty`, `new Date().toISOString()`, `util.inspect` and `humanize`: parameters, not modelled.
- Filesystem failures: errors thrown by `fs.existsSync`, `fs.statSync`, `mkfifoSync` or `fs.createWriteStream`, such as a missing parent directory or denied permission, are not modelled. Creation always succeeds in the model.
- Shared mutable state: `inspectOpts` and `OUT_FD` are process-wide objects. The model passes them in and returns the updated values.
- Text.Lower: lowers ASCII letters only, where `toLowerCase` (src/node.js:130) applies the full Unicode case mapping; a name with non-ASCII letters may lower differently.
- Config.DeriveKey: lower-cases ASCII letters only, not the full Unicode `toLowerCase`; names outside ASCII may derive differently. The `/^debug_/i` tests and the value words are exact, since a case-insensitive match of these ASCII patterns only accepts ASCII letters.
- Config.ExtractSpec: the enumeration order of `Object.keys(process.env)` is the host's; the model takes the enumerated entries as given.
- Format.FormatArgs: colour mode as written throws a `ReferenceError` at src/node.js:210, because `humanize` is unbound. By then `args[0]` is already prefixed (src/node.js:209), and no suffix is appended. The model assumes the host supplies `humanize` and states the result the code would give with it.
- Format.FormatArgs: requires the first argument to be text, as the setup code arranges; the source's plain mode would also concatenate a non-text first argument.
- Persist.Save: treats the environment as case-sensitive; on Windows `process.env` names are case-insensitive.

=== FILE: channel.dfy ===
/**
  Output-channel resolution (`getWriteStream`) and instance initialisation
  (`init`), over an abstract filesystem that maps a path to the kind of entry
  found there.
 */
module Channel {
  import opened Config

  /** A filesystem entry: a named pipe or anything else. A pipe created here
      records the mode requested of `mkfifo`; the process umask, which the host
      applies on top, is not modelled. */
  datatype Node = Fifo(requestedMode: nat) | NonFifo

  type FileSystem = map<string, Node>

  /** Where the output goes: standard error, a write stream on a named pipe,
      or `undefined` (nothing is returned). */
  datatype Sink = Stderr | PipeWriter(path: string) | Undefined

  /** The chosen sink together with the filesystem after resolution. */
  datatype Resolution = Resolution(sink: Sink, fs: FileSystem)

  /** The mode requested for a created pipe: octal 644, rw-r--r--. */
  const FifoMode: nat := 6 * 64 + 4 * 8 + 4

  /** The `fd` option holds a non-empty path. */
  predicate HasFdPath(opts: Options)
  {
    "fd" in opts && opts["fd"].Str? && opts["fd"].s != ""
  }

  /** `getWriteStream()`: no truthy `fd` gives standard error; a path naming an
      existing non-pipe gives standard error and creates nothing; a path naming
      a pipe gives a stream on it; a missing path is first made a pipe, requesting
      mode 0644; a truthy non-text `fd` returns nothing. Existing entries are never
      altered, and a stream is only ever opened on a pipe. */
  function GetWriteStream(opts: Options, fs: FileSystem): (r: Resolution)
    ensures !IsSet(opts, "fd") ==> r == Resolution(Stderr, fs)
    ensures IsSet(opts, "fd") && !opts["fd"].Str? ==> r == Resolution(Undefined, fs)
    ensures HasFdPath(opts) ==>
      var p := opts["fd"].s;
      && (p in fs && fs[p] == NonFifo ==> r == Resolution(Stderr, fs))
      && (p in fs && fs[p].Fifo? ==> r == Resolution(PipeWriter(p), fs))
      && (p !in fs ==> r == Resolution(PipeWriter(p), fs[p := Fifo(FifoMode)]))
    ensures forall q :: q in fs ==> q in r.fs && r.fs[q] == fs[q]
    ensures r.sink.PipeWriter? ==> r.sink.path in r.fs && r.fs[r.sink.path].Fifo?
  {
    if !IsSet(opts, "fd") then Resolution(Stderr, fs)
    else
      match opts["fd"]
      case Str(p) =>
        if p in fs then
          if fs[p].Fifo? then Resolution(PipeWriter(p), fs) else Resolution(Stderr, fs)
        else
          Resolution(PipeWriter(p), fs[p := Fifo(FifoMode)])
      case _ => Resolution(Undefined, fs)
  }

  /** Resolving again with the same options on the filesystem the first
      resolution left gives the same sink and changes nothing. */
  lemma ResolveIdempotent(opts: Options, fs: FileSystem)
    ensures var r := GetWriteStream(opts, fs);
            GetWriteStream(opts, r.fs) == r
  {
  }

  /** `init(debug)`: copying every option onto itself leaves the options as
      they were; the output channel is then resolved afresh. `keys` is the
      enumeration of the options' names. */
  method Init(opts: Options, keys: seq<string>, fs: FileSystem) returns (opts': Options, out: Resolution)
    requires forall i :: 0 <= i < |keys| ==> keys[i] in opts
    ensures opts' == opts
    ensures out == GetWriteStream(opts, fs)
  {
    opts' := opts;
    var i := 0;
    while i < |keys|
      invariant 0 <= i <= |keys|
      invariant opts' == opts
    {
      opts' := opts'[keys[i] := opts'[keys[i]]];
      i := i + 1;
    }
    out := GetWriteStream(opts', fs);
  }
}

=== FILE: colors.dfy ===
/**
  Colour decisions of the Node back-end: the palette chosen from the
  terminal's colour-support level, the ANSI foreground escape for a palette
  entry, and whether colours are used at all.
 */
module Colors {
  import opened Optional
  import opened Text
  import opened Config
  import opened Environment

  const Esc: char := 27 as char

  /** The palette used without 256-colour support. */
  const BasicPalette: seq<nat> := [6, 2, 3, 4, 5, 1]

  /** The palette used when the error stream supports 256 colours, written in
      four runs of nineteen entries. */
  const ExtendedPalette: seq<nat> := ExtendedRun0 + ExtendedRun1 + ExtendedRun2 + ExtendedRun3

  const ExtendedRun0: seq<nat> :=
    [20, 21, 26, 27, 32, 33, 38, 39, 40, 41, 42, 43, 44, 45, 56, 57, 62, 63, 68]
  const ExtendedRun1: seq<nat> :=
    [69, 74, 75, 76, 77, 78, 79, 80, 81, 92, 93, 98, 99, 112, 113, 128, 129, 134, 135]
  const ExtendedRun2: seq<nat> :=
    [148, 149, 160, 161, 162, 163, 164, 165, 166, 167, 168, 169, 170, 171, 172, 173, 178, 179, 184]
  const ExtendedRun3: seq<nat> :=
    [185, 196, 197, 198, 199, 200, 201, 202, 203, 204, 205, 206, 207, 208, 209, 214, 215, 220, 221]

  /** The level at which the extended palette is chosen (256 colours). */
  const ExtendedLevel := 2

  /** The palette for the colour-support level the detector reports (0 when
      the detector is unavailable). Basic entries are the eight-colour codes,
      extended ones the 256-colour codes. */
  function SelectPalette(level: int): (p: seq<nat>)
    ensures |p| == 6 || |p| == 76
    ensures level >= ExtendedLevel <==> |p| == 76
    ensures forall c :: c in p ==> c <= 255 && (c < 8 <==> level < ExtendedLevel)
  {
    PaletteRanges();
    if level >= ExtendedLevel then ExtendedPalette else BasicPalette
  }

  /** The foreground escape for colour `c`: `ESC[3<c>` for the eight basic
      colours, `ESC[38;5;<c>` for the 256-colour codes. */
  function ColorCode(c: nat): (r: string)
    ensures c < 8 ==> r == [Esc, '[', '3', DigitChar(c)]
    ensures c >= 8 ==> r == [Esc] + "[38;5;" + Decimal(c)
  {
    [Esc] + "[3" + (if c < 8 then Decimal(c) else "8;5;" + Decimal(c))
  }

  /** Reads the colour back out of a foreground escape. */
  function ParseColorCode(s: string): Option<nat>
  {
    if |s| == 4 && s[..3] == [Esc, '[', '3'] && '0' <= s[3] <= '7' then
      Some(s[3] as int - '0' as int)
    else if |s| > 7 && s[..7] == [Esc] + "[38;5;"
         && forall i :: 7 <= i < |s| ==> IsDigit(s[i]) then
      Some(DigitsValue(s[7..]))
    else None
  }

  /** The escape determines its colour: distinct colours get distinct escapes. */
  lemma ColorCodeRoundTrip(c: nat)
    ensures ParseColorCode(ColorCode(c)) == Some(c)
  {
    var s := ColorCode(c);
    if c >= 8 {
      DecimalRoundTrip(c);
      assert s[7..] == Decimal(c);
      assert s[..7] == [Esc] + "[38;5;";
    }
  }

  /** Basic entries are eight-colour codes, extended ones 256-colour codes. */
  lemma PaletteRanges()
    ensures forall c :: c in BasicPalette ==> c < 8
    ensures |ExtendedPalette| == 76
    ensures forall c :: c in ExtendedPalette ==> 8 <= c <= 255
  {
  }

  /** Every basic entry gets the short escape and every extended entry the
      256-colour escape. */
  lemma PaletteEscapes()
    ensures forall c :: c in BasicPalette ==> |ColorCode(c)| == 4
    ensures forall c :: c in ExtendedPalette ==> |ColorCode(c)| > 7 && ColorCode(c)[..7] == [Esc] + "[38;5;"
  {
    PaletteRanges();
  }

  /** `useColors()`: a `colors` option, converted to a boolean, wins; without
      one the terminal flag of the error stream decides. */
  function UseColors(opts: Options, isTty: bool): (r: bool)
    ensures "colors" in opts ==> (r <==> Truthy(opts["colors"]))
    ensures "colors" !in opts ==> r == isTty
  {
    if "colors" in opts then Truthy(opts["colors"]) else isTty
  }

  /** A `DEBUG_COLORS` variable switches colours off or on regardless of the
      terminal: off for a false word, `null` or the empty text, on otherwise. */
  lemma ColorsVariableOverridesTty(env: seq<EnvEntry>, i: int, isTty: bool)
    requires LastContributor(env, i, "colors")
    ensures UseColors(Extract(env), isTty) <==>
              (Lower(env[i].1) !in FalseWords && env[i].1 != "null" && env[i].1 != "")
  {
    ExtractSpec(env);
    var raw := env[i].1;
    if raw == "" {
      assert Lower(raw) == "";
    }
  }
}

=== FILE: config.dfy ===
/**
  The `inspectOpts` configuration map built from the `DEBUG_*` environment
  variables: key derivation (prefix strip, lower-case, snake_case to
  camelCase) and value coercion.
 */
module Config {
  import opened Text
  import opened Environment

  /** A coerced configuration value. The numeric branch of the coercion never
      fires (it compares a number with a string), so no number variant exists. */
  datatype Value = Bool(b: bool) | Null | Str(s: string)

  /** The `inspectOpts` object: option name to value. */
  type Options = map<string, Value>

  /** The falsy values among those a configuration value can hold:
      `false`, `null` and the empty string. */
  const Falsy: set<Value> := {Bool(false), Null, Str("")}

  /** JavaScript truthiness (`Boolean(v)`) of a configuration value. */
  predicate Truthy(v: Value)
    ensures Truthy(v) <==> v !in Falsy
  {
    match v
    case Bool(b) => b
    case Null => false
    case Str(s) => s != ""
  }

  /** The option `name` is present and truthy. */
  predicate IsSet(opts: Options, name: string)
  {
    name in opts && Truthy(opts[name])
  }

  const DebugPrefix := "debug_"

  /** The name matches `/^debug_/i`: its first six characters spell `debug_`
      in any mix of ASCII case. */
  predicate IsDebugKey(key: string)
    ensures IsDebugKey(key) <==>
              |key| >= 6 && forall i :: 0 <= i < 6 ==> ToLowerChar(key[i]) == DebugPrefix[i]
  {
    |key| >= |DebugPrefix| && Lower(key[..|DebugPrefix|]) == DebugPrefix
  }

  /** No `_` is directly followed by a lower-case ASCII letter. */
  predicate NoSnakeJoint(s: string)
  {
    forall i :: 0 <= i < |s| - 1 ==> !(s[i] == '_' && IsLowerAscii(s[i + 1]))
  }

  /** `s.replace(/_([a-z])/g, k => k.toUpperCase())`: scanning left to right,
      each `_` followed by a lower-case letter becomes that letter upper-cased. */
  function CamelCase(s: string): (r: string)
    ensures |r| <= |s|
    ensures NoSnakeJoint(r)
    ensures |s| > 0 ==> |r| > 0 && (IsLowerAscii(r[0]) <==> IsLowerAscii(s[0]))
  {
    if |s| == 0 then ""
    else if |s| >= 2 && s[0] == '_' && IsLowerAscii(s[1]) then
      [ToUpperChar(s[1])] + CamelCase(s[2..])
    else
      [s[0]] + CamelCase(s[1..])
  }

  /** The inverse of `CamelCase` on strings without upper-case letters: each
      upper-case letter becomes `_` and its lower-case form. */
  function SnakeCase(s: string): string
  {
    if |s| == 0 then ""
    else if IsUpperAscii(s[0]) then ['_', ToLowerChar(s[0])] + SnakeCase(s[1..])
    else [s[0]] + SnakeCase(s[1..])
  }

  /** Camel-casing loses nothing on a lower-cased name. */
  lemma {:induction false} SnakeCamelRoundTrip(s: string)
    requires NoUpperAscii(s)
    ensures SnakeCase(CamelCase(s)) == s
    decreases |s|
  {
    if |s| == 0 {
    } else if |s| >= 2 && s[0] == '_' && IsLowerAscii(s[1]) {
      SnakeCamelRoundTrip(s[2..]);
      var c := ToUpperChar(s[1]);
      assert IsUpperAscii(c) && ToLowerChar(c) == s[1];
      assert ([c] + CamelCase(s[2..]))[1..] == CamelCase(s[2..]);
      assert s == ['_', s[1]] + s[2..];
    } else {
      SnakeCamelRoundTrip(s[1..]);
      assert !IsUpperAscii(s[0]);
      assert ([s[0]] + CamelCase(s[1..]))[1..] == CamelCase(s[1..]);
      assert s == [s[0]] + s[1..];
    }
  }

  /** The option name a `DEBUG_*` variable sets: the name with its first six
      characters dropped, lower-cased, then camel-cased. */
  function DeriveKey(key: string): (r: string)
    requires IsDebugKey(key)
    ensures NoSnakeJoint(r)
    ensures SnakeCase(r) == Lower(key[|DebugPrefix|..])
  {
    var rest := Lower(key[|DebugPrefix|..]);
    SnakeCamelRoundTrip(rest);
    CamelCase(rest)
  }

  const TrueWords: set<string> := {"yes", "on", "true", "enabled"}
  const FalseWords: set<string> := {"no", "off", "false", "disabled"}

  /** The coercion of an environment text into an option value. */
  function Coerce(raw: string): (r: Value)
    ensures r == Bool(true) <==> Lower(raw) in TrueWords
    ensures r == Bool(false) <==> Lower(raw) in FalseWords
    ensures r == Null <==> raw == "null"
    ensures r.Str? <==> Lower(raw) !in TrueWords + FalseWords && raw != "null"
    ensures r.Str? ==> r.s == raw
  {
    assert raw == "null" ==> Lower(raw) == raw by {
      if raw == "null" {
        assert forall i :: 0 <= i < |raw| ==> !IsUpperAscii(raw[i]);
      }
    }
    if Lower(raw) in TrueWords then Bool(true)
    else if Lower(raw) in FalseWords then Bool(false)
    else if raw == "null" then Null
    else Str(raw)
  }

  /** A coerced text is truthy exactly when it is no false word, not `null`
      and not empty: true words and every other non-empty text are truthy. */
  lemma CoercedTruthiness(raw: string)
    ensures Truthy(Coerce(raw)) <==> Lower(raw) !in FalseWords && raw != "null" && raw != ""
  {
  }

  /** A number's decimal text is never turned into a number: it stays text. */
  lemma NumericTextStaysText(n: nat)
    ensures Coerce(Decimal(n)) == Str(Decimal(n))
  {
  }

  /** The entry `e` sets the option `k`. */
  predicate Contributes(e: EnvEntry, k: string)
  {
    IsDebugKey(e.0) && DeriveKey(e.0) == k
  }

  /** `e` is the last of `env`'s entries that sets option `k`. */
  predicate LastContributor(env: seq<EnvEntry>, i: int, k: string)
  {
    && 0 <= i < |env|
    && Contributes(env[i], k)
    && forall j :: i < j < |env| ==> !Contributes(env[j], k)
  }

  /** The `inspectOpts` reduction over the enumerated environment: each
      `DEBUG_*` entry, in order, writes its coerced text under its derived name. */
  function Extract(env: seq<EnvEntry>): (r: Options)
    ensures forall k :: k in r ==> NoSnakeJoint(k)
    ensures |env| > 0 && IsDebugKey(env[|env| - 1].0) ==>
              DeriveKey(env[|env| - 1].0) in r && r[DeriveKey(env[|env| - 1].0)] == Coerce(env[|env| - 1].1)
  {
    if |env| == 0 then map[]
    else
      var prev := Extract(env[..|env| - 1]);
      var e := env[|env| - 1];
      if IsDebugKey(e.0) then prev[DeriveKey(e.0) := Coerce(e.1)] else prev
  }

  /** The extracted options are exactly those some `DEBUG_*` entry sets; each
      holds the coerced text of the last entry that sets it, and no option name
      keeps a snake_case joint. */
  lemma {:induction false} ExtractSpec(env: seq<EnvEntry>)
    ensures forall k :: k in Extract(env) <==> exists i :: 0 <= i < |env| && Contributes(env[i], k)
    ensures forall i, k :: LastContributor(env, i, k) ==> k in Extract(env) && Extract(env)[k] == Coerce(env[i].1)
    ensures forall k :: k in Extract(env) ==> NoSnakeJoint(k)
    decreases |env|
  {
    if |env| > 0 {
      var n := |env|;
      var pre := env[..n - 1];
      var e := env[n - 1];
      var prev := Extract(pre);
      var r := Extract(env);
      ExtractSpec(pre);
      assert forall i :: 0 <= i < n - 1 ==> pre[i] == env[i];
      forall k
        ensures k in r <==> exists i :: 0 <= i < n && Contributes(env[i], k)
      {
        if k in r {
          if IsDebugKey(e.0) && k == DeriveKey(e.0) {
            assert Contributes(env[n - 1], k);
          } else {
            assert k in prev;
            var i :| 0 <= i < |pre| && Contributes(pre[i], k);
            assert Contributes(env[i], k);
          }
        } else {
          forall i | 0 <= i < n ensures !Contributes(env[i], k) {
            if i < n - 1 {
              assert pre[i] == env[i];
            }
          }
        }
      }
      forall i, k | LastContributor(env, i, k)
        ensures k in r && r[k] == Coerce(env[i].1)
      {
        if i < n - 1 {
          assert !Contributes(e, k);
          assert LastContributor(pre, i, k);
        }
      }
    }
  }

  /** The option names of the worked environment below. */
  lemma ExampleKeys()
    ensures IsDebugKey("DEBUG_HIDE_DATE") && DeriveKey("DEBUG_HIDE_DATE") == "hideDate"
    ensures IsDebugKey("DEBUG_DEPTH") && DeriveKey("DEBUG_DEPTH") == "depth"
    ensures IsDebugKey("debug_foo") && DeriveKey("debug_foo") == "foo"
    ensures IsDebugKey("DEBUG_FOO") && DeriveKey("DEBUG_FOO") == "foo"
    ensures !IsDebugKey("PATH")
  {
    HideDateKey();
    DepthKey();
    FooKeys();
  }

  lemma HideDateKey()
    ensures IsDebugKey("DEBUG_HIDE_DATE") && DeriveKey("DEBUG_HIDE_DATE") == "hideDate"
  {
    assert Lower("DEBUG_") == DebugPrefix;
    assert "DEBUG_HIDE_DATE"[..6] == "DEBUG_";
    assert "DEBUG_HIDE_DATE"[6..] == "HIDE_DATE";
    assert Lower("HIDE_DATE") == "hide_date";
    HideDateCamel();
  }

  lemma HideDateCamel()
    ensures CamelCase("hide_date") == "hideDate"
  {
    assert CamelCase("e") == "e";
    assert CamelCase("te") == "te";
    assert CamelCase("ate") == "ate";
    assert CamelCase("_date") == "Date";
    assert CamelCase("e_date") == "eDate";
    assert CamelCase("de_date") == "deDate";
    assert CamelCase("ide_date") == "ideDate";
  }

  lemma DepthKey()
    ensures IsDebugKey("DEBUG_DEPTH") && DeriveKey("DEBUG_DEPTH") == "depth"
  {
    assert Lower("DEBUG_") == DebugPrefix;
    assert "DEBUG_DEPTH"[6..] == "DEPTH";
    assert Lower("DEPTH") == "depth";
    assert CamelCase("pth") == "pth";
    assert CamelCase("depth") == "depth";
  }

  lemma FooKeys()
    ensures IsDebugKey("debug_foo") && DeriveKey("debug_foo") == "foo"
    ensures IsDebugKey("DEBUG_FOO") && DeriveKey("DEBUG_FOO") == "foo"
  {
    assert Lower("DEBUG_") == DebugPrefix;
    assert Lower("debug_") == DebugPrefix;
    assert "debug_foo"[6..] == "foo";
    assert "DEBUG_FOO"[6..] == "FOO";
    assert Lower("foo") == "foo";
    assert Lower("FOO") == "foo";
    assert CamelCase("foo") == "foo";
  }

  /** The coerced values of the worked environment below. */
  lemma ExampleValues()
    ensures Coerce("yes") == Bool(true)
    ensures Coerce("10") == Str("10")
    ensures Coerce("null") == Null
    ensures Coerce("off") == Bool(false)
  {
    assert Lower("yes") == "yes";
    assert Lower("10") == "10";
    assert Lower("off") == "off";
  }

  /** One more enumerated entry: a `DEBUG_*` entry writes its coerced text
      over whatever the earlier entries left under its name. */
  lemma ExtractAppend(env: seq<EnvEntry>, e: EnvEntry)
    ensures IsDebugKey(e.0) ==> Extract(env + [e]) == Extract(env)[DeriveKey(e.0) := Coerce(e.1)]
    ensures !IsDebugKey(e.0) ==> Extract(env + [e]) == Extract(env)
  {
    assert (env + [e])[..|env + [e]| - 1] == env;
  }

  /** The first two entries of the worked environment below. */
  lemma ExampleFirstTwo()
    ensures Extract([("DEBUG_HIDE_DATE", "yes"), ("DEBUG_DEPTH", "10")])
            == map["hideDate" := Bool(true), "depth" := Str("10")]
  {
    var e0, e1 := ("DEBUG_HIDE_DATE", "yes"), ("DEBUG_DEPTH", "10");
    HideDateKey();
    DepthKey();
    ExampleValues();
    ExtractAppend([], e0);
    assert [] + [e0] == [e0];
    ExtractAppend([e0], e1);
  }

  /** The first four entries of the worked environment below. */
  lemma ExampleFirstFour()
    ensures Extract([("DEBUG_HIDE_DATE", "yes"), ("DEBUG_DEPTH", "10"), ("PATH", "/bin"),
                     ("debug_foo", "null")])
            == map["hideDate" := Bool(true), "depth" := Str("10"), "foo" := Null]
  {
    var e0, e1, e2, e3 := ("DEBUG_HIDE_DATE", "yes"), ("DEBUG_DEPTH", "10"), ("PATH", "/bin"),
                          ("debug_foo", "null");
    ExampleFirstTwo();
    ExampleKeys();
    ExampleValues();
    ExtractAppend([e0, e1], e2);
    assert [e0, e1] + [e2] == [e0, e1, e2];
    ExtractAppend([e0, e1, e2], e3);
    assert [e0, e1, e2] + [e3] == [e0, e1, e2, e3];
  }

  /** A worked environment: `DEBUG_HIDE_DATE=yes` sets `hideDate` to true,
      `DEBUG_DEPTH=10` keeps the text `"10"`, `debug_foo=null` sets `foo` to
      null, a later `DEBUG_FOO=off` overrides it, and `PATH` contributes nothing. */
  lemma ExtractExample()
    ensures Extract([("DEBUG_HIDE_DATE", "yes"), ("DEBUG_DEPTH", "10"), ("PATH", "/bin"),
                     ("debug_foo", "null"), ("DEBUG_FOO", "off")])
            == map["hideDate" := Bool(true), "depth" := Str("10"), "foo" := Bool(false)]
  {
    var pre := [("DEBUG_HIDE_DATE", "yes"), ("DEBUG_DEPTH", "10"), ("PATH", "/bin"),
                ("debug_foo", "null")];
    var e4 := ("DEBUG_FOO", "off");
    ExampleFirstFour();
    FooKeys();
    ExampleValues();
    ExtractAppend(pre, e4);
    assert pre + [e4] == [("DEBUG_HIDE_DATE", "yes"), ("DEBUG_DEPTH", "10"), ("PATH", "/bin"),
                          ("debug_foo", "null"), ("DEBUG_FOO", "off")];
    assert |"foo"| != |"hideDate"| && |"foo"| != |"depth"|;
    assert map["hideDate" := Bool(true), "depth" := Str("10"), "foo" := Null]["foo" := Bool(false)]
           == map["hideDate" := Bool(true), "depth" := Str("10"), "foo" := Bool(false)];
  }
}

=== FILE: environment.dfy ===
/**
  The process environment, read by the configuration extractor and written by
  `save`: a map from variable name to text, and its enumeration as name/text
  entries in the host's order.
 */
module Environment {

  type Env = map<string, string>

  /** One enumerated environment variable: name and text. */
  type EnvEntry = (string, string)

  /** `entries` lists every variable of `env` exactly once, with its text. */
  predicate Enumerates(entries: seq<EnvEntry>, env: Env)
  {
    && (forall i :: 0 <= i < |entries| ==> entries[i].0 in env && env[entries[i].0] == entries[i].1)
    && (forall i, j :: 0 <= i < j < |entries| ==> entries[i].0 != entries[j].0)
    && (forall k :: k in env ==> exists i :: 0 <= i < |entries| && entries[i].0 == k)
  }

  /** The enumeration with the variable `name` left out, order kept. */
  function Without(entries: seq<EnvEntry>, name: string): (r: seq<EnvEntry>)
    ensures |r| <= |entries|
    ensures forall i :: 0 <= i < |r| ==> r[i].0 != name && r[i] in entries
  {
    if |entries| == 0 then []
    else
      var w := Without(entries[..|entries| - 1], name);
      var e := entries[|entries| - 1];
      if e.0 == name then w else w + [e]
  }
}

=== FILE: format.dfy ===
/**
  Line formatting of the Node back-end: `formatArgs` with its colour and
  plain modes, `getDate`, and the `%o` / `%O` directive renderers.
 */
module Format {
  import opened Text
  import opened Config
  import opened Colors

  /** One argument of a log call: a string, or any other value, which
      formatting passes through untouched. */
  datatype Arg = StringArg(text: string) | ValueArg(handle: nat)

  /** The fields of a debug instance that formatting reads; `diff` is the time
      since the namespace's previous emission. */
  datatype Instance = Instance(namespace: string, color: nat, useColors: bool, diff: int)

  /** The ANSI reset escape. */
  const Reset: string := [Esc] + "[0m"

  /** `t` is a suffix of `s`. */
  predicate EndsWith(s: string, t: string)
  {
    |t| <= |s| && s[|s| - |t|..] == t
  }

  /** The per-line prefix of colour mode: two spaces, the bold colour escape,
      the namespace, a space and a reset. */
  function LinePrefix(name: string, c: nat): (r: string)
    ensures "  " + ColorCode(c) + ";1m" <= r
    ensures EndsWith(r, name + " " + Reset)
    ensures '\n' in r <==> '\n' in name
  {
    "  " + ColorCode(c) + ";1m" + name + " " + Reset
  }

  /** The suffix argument of colour mode: `+` and the humanised elapsed time
      in the instance's colour. */
  function ElapsedSuffix(c: nat, elapsed: string): (r: string)
    ensures ColorCode(c) + "m+" <= r
    ensures EndsWith(r, elapsed + Reset)
    ensures '\n' in r <==> '\n' in elapsed
  {
    ColorCode(c) + "m+" + elapsed + Reset
  }

  /** Each line with `prefix` put in front. */
  function PrefixEach(prefix: string, lines: seq<string>): (r: seq<string>)
    ensures |r| == |lines|
    ensures forall i :: 0 <= i < |r| ==> r[i] == prefix + lines[i]
  {
    if |lines| == 0 then [] else [prefix + lines[0]] + PrefixEach(prefix, lines[1..])
  }

  /** Each line with leading and trailing white space cut off. */
  function TrimEach(lines: seq<string>): (r: seq<string>)
    ensures |r| == |lines|
    ensures forall i :: 0 <= i < |r| ==> r[i] == Trim(lines[i])
  {
    if |lines| == 0 then []
    else
      var rest := TrimEach(lines[1..]);
      assert forall i :: 1 <= i < |lines| ==> lines[i] == lines[1..][i - 1];
      [Trim(lines[0])] + rest
  }

  /** Putting the prefix in front and after every separator is the same as
      prefixing every piece and joining them. */
  lemma {:induction false} PrefixJoin(prefix: string, lines: seq<string>)
    requires |lines| >= 1
    ensures prefix + Join(lines, "\n" + prefix) == Join(PrefixEach(prefix, lines), "\n")
    decreases |lines|
  {
    if |lines| > 1 {
      var rest := lines[1..];
      var sep := "\n" + prefix;
      PrefixJoin(prefix, rest);
      var tail := PrefixEach(prefix, rest);
      var all := PrefixEach(prefix, lines);
      assert all == [prefix + lines[0]] + tail;
      assert all[1..] == tail;
      calc {
        prefix + Join(lines, sep);
        prefix + (lines[0] + sep + Join(rest, sep));
        (prefix + lines[0]) + "\n" + (prefix + Join(rest, sep));
        (prefix + lines[0]) + "\n" + Join(tail, "\n");
        Join(all, "\n");
      }
    }
  }

  /** `getDate()`: nothing when `hideDate` is set, otherwise the ISO timestamp
      and one space. */
  function GetDate(opts: Options, isoNow: string): (r: string)
    ensures IsSet(opts, "hideDate") ==> r == ""
    ensures !IsSet(opts, "hideDate") ==> r == isoNow + " "
  {
    if IsSet(opts, "hideDate") then "" else isoNow + " "
  }

  /** `formatArgs(args)`. In colour mode every line of the first argument gets
      the namespace prefix and exactly one suffix argument is appended; in plain
      mode the date, the namespace and a space are put in front of the first
      argument. The other arguments are unchanged in both modes. `isoNow` is the
      current time as an ISO string and `humanize` renders an elapsed time. */
  function FormatArgs(inst: Instance, opts: Options, isoNow: string, humanize: int -> string, args: seq<Arg>): (r: seq<Arg>)
    requires |args| >= 1 && args[0].StringArg?
    ensures inst.useColors ==>
      var prefix := LinePrefix(inst.namespace, inst.color);
      && |r| == |args| + 1
      && r[0] == StringArg(Join(PrefixEach(prefix, Split(args[0].text, '\n')), "\n"))
      && r[1..|args|] == args[1..]
      && r[|args|] == StringArg(ElapsedSuffix(inst.color, humanize(inst.diff)))
    ensures !inst.useColors ==>
      && |r| == |args|
      && r[0] == StringArg(GetDate(opts, isoNow) + inst.namespace + " " + args[0].text)
      && r[1..] == args[1..]
  {
    var name := inst.namespace;
    if inst.useColors then
      var prefix := LinePrefix(name, inst.color);
      var lines := Split(args[0].text, '\n');
      PrefixJoin(prefix, lines);
      [StringArg(prefix + Join(lines, "\n" + prefix))]
        + args[1..] + [StringArg(ElapsedSuffix(inst.color, humanize(inst.diff)))]
    else
      [StringArg(GetDate(opts, isoNow) + name + " " + args[0].text)] + args[1..]
  }

  /** A namespace without line breaks keeps the line structure in colour mode:
      the formatted first argument has as many lines as the original, and line
      `i` is the prefix followed by the original line `i`. */
  lemma ColorModeLines(inst: Instance, opts: Options, isoNow: string, humanize: int -> string, args: seq<Arg>)
    requires |args| >= 1 && args[0].StringArg?
    requires inst.useColors && '\n' !in inst.namespace
    ensures var r := FormatArgs(inst, opts, isoNow, humanize, args);
            var prefix := LinePrefix(inst.namespace, inst.color);
            var before := Split(args[0].text, '\n');
            var after := Split(r[0].text, '\n');
            && |after| == |before|
            && forall i :: 0 <= i < |after| ==> after[i] == prefix + before[i]
  {
    var prefix := LinePrefix(inst.namespace, inst.color);
    var before := Split(args[0].text, '\n');
    var pieces := PrefixEach(prefix, before);
    assert '\n' !in ColorCode(inst.color);
    assert '\n' !in prefix;
    forall i | 0 <= i < |pieces| ensures '\n' !in pieces[i] {
      assert pieces[i] == prefix + before[i];
    }
    SplitJoin(pieces, '\n');
  }

  /** Plain mode writes the timestamp, a space, the namespace, a space and the
      message, in that order; with `hideDate` set only the namespace, a space
      and the message. */
  lemma PlainModeLayout(inst: Instance, opts: Options, isoNow: string, humanize: int -> string, args: seq<Arg>)
    requires |args| >= 1 && args[0].StringArg?
    requires !inst.useColors
    ensures var r := FormatArgs(inst, opts, isoNow, humanize, args);
            && (!IsSet(opts, "hideDate") ==>
                  r[0].text == isoNow + " " + inst.namespace + " " + args[0].text)
            && (IsSet(opts, "hideDate") ==>
                  r[0].text == inst.namespace + " " + args[0].text)
  {
  }

  /** The `%o` renderer: sets the `colors` option to the colour flag, renders
      the value, trims each line and joins the lines with single spaces. The
      result has no line break, and a one-line rendering is merely trimmed.
      `inspect` is the host's pretty-printer. */
  function FormatLowerO<V>(inspect: (V, Options) -> string, v: V, opts: Options, useColors: bool): (r: (string, Options))
    ensures r.1 == opts["colors" := Bool(useColors)]
    ensures '\n' !in r.0
    ensures '\n' !in inspect(v, r.1) ==> r.0 == Trim(inspect(v, r.1))
    ensures r.0 == Join(TrimEach(Split(inspect(v, r.1), '\n')), " ")
  {
    var opts' := opts["colors" := Bool(useColors)];
    LowerOFacts(inspect(v, opts'));
    (Join(TrimEach(Split(inspect(v, opts'), '\n')), " "), opts')
  }

  /** The `%o` layout of a rendering `out`: the trimmed lines joined by single
      spaces hold no line break, and a rendering without line breaks is only
      trimmed. */
  lemma LowerOFacts(out: string)
    ensures '\n' !in Join(TrimEach(Split(out, '\n')), " ")
    ensures '\n' !in out ==> Join(TrimEach(Split(out, '\n')), " ") == Trim(out)
  {
    var lines := Split(out, '\n');
    var trimmed := TrimEach(lines);
    forall i | 0 <= i < |trimmed| ensures '\n' !in trimmed[i] {
      assert '\n' !in lines[i];
    }
    JoinKeepsOut(trimmed, " ", '\n');
    assert '\n' !in out ==> lines == [out] by {
      if '\n' !in out {
        SplitJoin([out], '\n');
      }
    }
  }

  /** Joining pieces free of `c` with a separator free of `c` gives a string
      free of `c`. */
  lemma {:induction false} JoinKeepsOut(parts: seq<string>, sep: string, c: char)
    requires c !in sep
    requires forall i :: 0 <= i < |parts| ==> c !in parts[i]
    ensures c !in Join(parts, sep)
    decreases |parts|
  {
    if |parts| > 1 {
      JoinKeepsOut(parts[1..], sep, c);
      assert c !in parts[0];
    }
  }

  /** The `%O` renderer: sets the `colors` option to the colour flag and
      returns the pretty-printer's output unchanged, line breaks included. */
  function FormatUpperO<V>(inspect: (V, Options) -> string, v: V, opts: Options, useColors: bool): (r: (string, Options))
    ensures r.1 == opts["colors" := Bool(useColors)]
    ensures r.0 == inspect(v, r.1)
  {
    var opts' := opts["colors" := Bool(useColors)];
    (inspect(v, opts'), opts')
  }

  /** After either renderer has run, `useColors()` answers the flag it stored,
      whatever the terminal. */
  lemma RenderersFixUseColors<V>(inspect: (V, Options) -> string, v: V, opts: Options, flag: bool, isTty: bool)
    ensures UseColors(FormatLowerO(inspect, v, opts, flag).1, isTty) == flag
    ensures UseColors(FormatUpperO(inspect, v, opts, flag).1, isTty) == flag
  {
  }
}

=== FILE: optional.dfy ===
/** The conventional optional value: `undefined` in the JavaScript host. */
module Optional {

  datatype Option<+T> = None | Some(value: T)
}

=== FILE: persist.dfy ===
/**
  Persistence of the enabled-namespace list in the `DEBUG` environment
  variable: `save` and `load`.
 */
module Persist {
  import opened Optional
  import opened Environment
  import opened Text
  import opened Config

  const DebugVar := "DEBUG"

  /** `save(namespaces)`: a non-empty list is stored in `DEBUG`; an empty or
      missing one removes `DEBUG`. No other variable changes. */
  function Save(env: Env, namespaces: Option<string>): (r: Env)
    ensures namespaces.Some? && namespaces.value != "" ==>
              DebugVar in r && r[DebugVar] == namespaces.value
    ensures (namespaces.None? || namespaces.value == "") ==> DebugVar !in r
    ensures forall k :: k != DebugVar ==> (k in r <==> k in env)
    ensures forall k :: k != DebugVar && k in r ==> r[k] == env[k]
  {
    match namespaces
    case Some(s) => if s != "" then env[DebugVar := s] else env - {DebugVar}
    case None => env - {DebugVar}
  }

  /** `load()`: the text of `DEBUG`, or nothing when it is unset. The host
      object built by the back-end does not include `load`, so only this
      file could call it. */
  function Load(env: Env): (r: Option<string>)
    ensures r.Some? <==> DebugVar in env
    ensures r.Some? ==> r.value == env[DebugVar]
  {
    if DebugVar in env then Some(env[DebugVar]) else None
  }

  /** Loading after saving gives back a non-empty list, and nothing after
      saving an empty or missing one; a saved list is never loaded as empty. */
  lemma SaveLoadRoundTrip(env: Env, namespaces: Option<string>)
    ensures namespaces.Some? && namespaces.value != "" ==> Load(Save(env, namespaces)) == namespaces
    ensures namespaces.None? || namespaces.value == "" ==> Load(Save(env, namespaces)) == None
    ensures Load(Save(env, namespaces)) != Some("")
  {
  }

  /** Saving is idempotent, and the last save decides. */
  lemma SaveOverwrites(env: Env, first: Option<string>, second: Option<string>)
    ensures Save(Save(env, first), second) == Save(env, second)
  {
  }

  /** `DEBUG` is not a configuration variable (it lacks the underscore of the
      `DEBUG_` prefix), so the options never depend on it. */
  lemma {:induction false} ExtractIgnoresDebugVar(entries: seq<EnvEntry>)
    ensures Extract(entries) == Extract(Without(entries, DebugVar))
    decreases |entries|
  {
    if |entries| > 0 {
      var n := |entries|;
      var pre := entries[..n - 1];
      var e := entries[n - 1];
      ExtractIgnoresDebugVar(pre);
      var w := Without(pre, DebugVar);
      if e.0 == DebugVar {
        assert !IsDebugKey(e.0) by {
          assert ToLowerChar(DebugVar[4]) == 'g';
        }
      } else {
        assert Without(entries, DebugVar) == w + [e];
        assert (w + [e])[..|w + [e]| - 1] == w;
      }
    }
  }

  /** Saving only touches `DEBUG`: enumerations of the environment before and
      after a save that agree on every other variable, in order, yield the same
      options. The two `Enumerates` premises only say which environments the
      sequences list; the one assumption about the host is that it keeps the
      order of the other variables, and the proof rests on that premise alone. */
  lemma SaveKeepsOptions(env: Env, namespaces: Option<string>, before: seq<EnvEntry>, after: seq<EnvEntry>)
    requires Enumerates(before, env) && Enumerates(after, Save(env, namespaces))
    requires Without(before, DebugVar) == Without(after, DebugVar)
    ensures Extract(before) == Extract(after)
  {
    ExtractIgnoresDebugVar(before);
    ExtractIgnoresDebugVar(after);
  }
}

=== FILE: text.dfy ===
/**
  The string primitives of the JavaScript host that the Node back-end relies
  on: ASCII case mapping, `String.prototype.trim`, `split` on a one-character
  separator, `join` with any separator, and the decimal rendering of a
  non-negative number.
  Strings are sequences of characters.
 */
module Text {

  predicate IsUpperAscii(c: char) { 'A' <= c <= 'Z' }

  predicate IsLowerAscii(c: char) { 'a' <= c <= 'z' }

  predicate IsDigit(c: char) { '0' <= c <= '9' }

  function ToLowerChar(c: char): char
  {
    if IsUpperAscii(c) then (c as int + 32) as char else c
  }

  function ToUpperChar(c: char): char
  {
    if IsLowerAscii(c) then (c as int - 32) as char else c
  }

  /** `toLowerCase`, restricted to the ASCII letters. */
  function Lower(s: string): (r: string)
    ensures |r| == |s|
    ensures forall i :: 0 <= i < |r| ==> !IsUpperAscii(r[i])
    ensures forall i :: 0 <= i < |r| ==> r[i] == ToLowerChar(s[i])
  {
    seq(|s|, i requires 0 <= i < |s| => ToLowerChar(s[i]))
  }

  /** No upper-case ASCII letter occurs in `s`. */
  predicate NoUpperAscii(s: string)
  {
    forall i :: 0 <= i < |s| ==> !IsUpperAscii(s[i])
  }

  /** The characters `String.prototype.trim` removes: the ECMAScript
      WhiteSpace and LineTerminator code points. */
  predicate IsJsWhiteSpace(c: char)
  {
    var n := c as int;
    || n == 0x09 || n == 0x0A || n == 0x0B || n == 0x0C || n == 0x0D
    || n == 0x20 || n == 0xA0 || n == 0x1680 || (0x2000 <= n <= 0x200A)
    || n == 0x2028 || n == 0x2029 || n == 0x202F || n == 0x205F
    || n == 0x3000 || n == 0xFEFF
  }

  function TrimStart(s: string): (r: string)
    ensures |r| <= |s| && r == s[|s| - |r|..]
    ensures forall i :: 0 <= i < |s| - |r| ==> IsJsWhiteSpace(s[i])
    ensures r == [] || !IsJsWhiteSpace(r[0])
  {
    if |s| > 0 && IsJsWhiteSpace(s[0]) then TrimStart(s[1..]) else s
  }

  function TrimEnd(s: string): (r: string)
    ensures |r| <= |s| && r == s[..|r|]
    ensures forall i :: |r| <= i < |s| ==> IsJsWhiteSpace(s[i])
    ensures r == [] || !IsJsWhiteSpace(r[|r| - 1])
  {
    if |s| > 0 && IsJsWhiteSpace(s[|s| - 1]) then TrimEnd(s[..|s| - 1]) else s
  }

  /** `String.prototype.trim`: the longest slice of `s` that neither starts
      nor ends with white space, everything cut off being white space. */
  function Trim(s: string): (r: string)
    ensures r == [] || (!IsJsWhiteSpace(r[0]) && !IsJsWhiteSpace(r[|r| - 1]))
    ensures exists i, j :: 0 <= i <= j <= |s| && r == s[i..j]
              && (forall k :: 0 <= k < i ==> IsJsWhiteSpace(s[k]))
              && (forall k :: j <= k < |s| ==> IsJsWhiteSpace(s[k]))
    ensures (|s| == 0 || (!IsJsWhiteSpace(s[0]) && !IsJsWhiteSpace(s[|s| - 1]))) ==> r == s
  {
    var t := TrimStart(s);
    var r := TrimEnd(t);
    TrimSlice(s, t, r);
    r
  }

  /** Trimming the start and then the end cuts white space off both ends of
      one contiguous slice. */
  lemma TrimSlice(s: string, t: string, r: string)
    requires |t| <= |s| && t == s[|s| - |t|..]
    requires |r| <= |t| && r == t[..|r|]
    requires forall k :: 0 <= k < |s| - |t| ==> IsJsWhiteSpace(s[k])
    requires forall k :: |r| <= k < |t| ==> IsJsWhiteSpace(t[k])
    ensures exists i, j :: 0 <= i <= j <= |s| && r == s[i..j]
              && (forall k :: 0 <= k < i ==> IsJsWhiteSpace(s[k]))
              && (forall k :: j <= k < |s| ==> IsJsWhiteSpace(s[k]))
  {
    var i := |s| - |t|;
    var j := i + |r|;
    assert r == s[i..j];
    forall k | j <= k < |s|
      ensures IsJsWhiteSpace(s[k])
    {
      assert s[k] == t[k - i];
    }
  }

  /** `s.split(sep)` for a one-character separator: the maximal separator-free
      pieces, in order; the empty string splits into one empty piece. */
  function Split(s: string, sep: char): (r: seq<string>)
    ensures |r| >= 1
    ensures forall i :: 0 <= i < |r| ==> sep !in r[i]
  {
    if |s| == 0 then [""]
    else if s[0] == sep then [""] + Split(s[1..], sep)
    else
      var rest := Split(s[1..], sep);
      [[s[0]] + rest[0]] + rest[1..]
  }

  /** `parts.join(sep)`: the pieces in order with `sep`, any string, between
      neighbours; it starts with the first piece (`JoinEndsWithLast`: and ends
      with the last). */
  function Join(parts: seq<string>, sep: string): (r: string)
    ensures |parts| == 0 ==> r == ""
    ensures |parts| > 0 ==> parts[0] <= r
  {
    if |parts| == 0 then ""
    else if |parts| == 1 then parts[0]
    else parts[0] + sep + Join(parts[1..], sep)
  }

  /** A join ends with its last piece. */
  lemma {:induction false} JoinEndsWithLast(parts: seq<string>, sep: string)
    requires |parts| > 0
    ensures var r := Join(parts, sep);
            var last := parts[|parts| - 1];
            |last| <= |r| && r[|r| - |last|..] == last
    decreases |parts|
  {
    if |parts| > 1 {
      var rest := parts[1..];
      JoinEndsWithLast(rest, sep);
      assert rest[|rest| - 1] == parts[|parts| - 1];
      var j := Join(rest, sep);
      var r := parts[0] + sep + j;
      assert r[|r| - |j|..] == j;
    }
  }

  /** Joining the pieces of a split with the separator gives back the string. */
  lemma {:induction false} JoinSplit(s: string, sep: char)
    ensures Join(Split(s, sep), [sep]) == s
    decreases |s|
  {
    if |s| == 0 {
    } else if s[0] == sep {
      JoinSplit(s[1..], sep);
      var rest := Split(s[1..], sep);
      assert Split(s, sep) == [""] + rest;
      assert ([""] + rest)[1..] == rest;
    } else {
      JoinSplit(s[1..], sep);
      var rest := Split(s[1..], sep);
      var parts := [[s[0]] + rest[0]] + rest[1..];
      assert Split(s, sep) == parts;
      if |rest| == 1 {
        assert Join(parts, [sep]) == [s[0]] + rest[0];
      } else {
        assert parts[1..] == rest[1..];
        assert Join(rest, [sep]) == rest[0] + [sep] + Join(rest[1..], [sep]);
      }
    }
  }

  /** Splitting the join of separator-free pieces gives back the pieces. */
  lemma {:induction false} SplitJoin(parts: seq<string>, sep: char)
    requires |parts| >= 1
    requires forall i :: 0 <= i < |parts| ==> sep !in parts[i]
    ensures Split(Join(parts, [sep]), sep) == parts
    decreases |parts|, |parts[0]|
  {
    var p := parts[0];
    if |parts| == 1 {
      assert Join(parts, [sep]) == p;
      if |p| > 0 {
        SplitJoin([p[1..]], sep);
        assert p[0] in p;
        assert Split(p[1..], sep) == [p[1..]];
        assert [p[0]] + p[1..] == p;
      }
    } else if |p| == 0 {
      SplitJoin(parts[1..], sep);
      assert Join(parts, [sep]) == [sep] + Join(parts[1..], [sep]);
      assert ([sep] + Join(parts[1..], [sep]))[1..] == Join(parts[1..], [sep]);
    } else {
      var tail := [p[1..]] + parts[1..];
      assert forall i :: 0 <= i < |tail| ==> sep !in tail[i] by {
        forall i | 0 <= i < |tail| ensures sep !in tail[i] {
          if i > 0 { assert tail[i] == parts[i]; }
        }
      }
      SplitJoin(tail, sep);
      var j := Join(parts, [sep]);
      assert Join(tail, [sep]) == p[1..] + [sep] + Join(parts[1..], [sep]);
      assert j == [p[0]] + Join(tail, [sep]);
      assert j[1..] == Join(tail, [sep]);
      assert tail[1..] == parts[1..];
      assert p[0] in p;
      assert j[0] == p[0] && j[0] != sep;
      assert Split(j, sep) == [[p[0]] + tail[0]] + tail[1..];
      assert [p[0]] + p[1..] == p;
      assert parts == [p] + parts[1..];
    }
  }

  function DigitChar(d: nat): (c: char)
    requires d < 10
    ensures IsDigit(c)
  {
    ('0' as int + d) as char
  }

  /** The decimal rendering of a non-negative number (`String(n)`). */
  function Decimal(n: nat): (r: string)
    ensures |r| >= 1
    ensures forall i :: 0 <= i < |r| ==> IsDigit(r[i])
    ensures r[0] == '0' ==> n == 0
    ensures |r| == 1 <==> n < 10
    decreases n
  {
    if n < 10 then [DigitChar(n)] else Decimal(n / 10) + [DigitChar(n % 10)]
  }

  /** The number a string of decimal digits denotes. */
  function DigitsValue(s: string): nat
    requires forall i :: 0 <= i < |s| ==> IsDigit(s[i])
  {
    if |s| == 0 then 0
    else
      assert IsDigit(s[|s| - 1]);
      DigitsValue(s[..|s| - 1]) * 10 + (s[|s| - 1] as int - '0' as int)
  }

  /** Reading a decimal rendering back gives the number. */
  lemma {:induction false} DecimalRoundTrip(n: nat)
    ensures DigitsValue(Decimal(n)) == n
    decreases n
  {
    if n >= 10 {
      DecimalRoundTrip(n / 10);
      var d := Decimal(n);
      assert d[..|d| - 1] == Decimal(n / 10);
    }
  }
}
